=== FILE: README.md ===
# opendlv-video-annotation-opencv, modelled in Dafny

The program shows frames from a shared-memory image buffer in a window. While
the operator holds the left mouse button on that window, each frame makes it
publish a `Direction` message with the pointer position as
`(azimuth, zenith)`. The message is stamped one microsecond before the sample
time stamp of the most recent image envelope, and that earlier stamp then
replaces the stored one. Several emissions inside one frame interval therefore
get distinct stamps that strictly decrease.

The model covers the program's sequential logic. The mouse callback and the
image listener are each one atomic transition. The three threads (mouse
callback, image listener and main loop) interleave as an arbitrary sequence of
inputs.

The send block of a loop iteration has two locked regions. Lines 115-122 read
the drag state under `g_dataMutex` (`ReadPointer`). Lines 124-131 decrement
the reference and send under `lastSampleTimeStampMutex` (`SendStamped`).
`LoopStep` runs the two back to back. No interleaving is lost by that, because
the first region reads only the drag state and the second only the reference.
`CallbacksBetweenRegions` proves it for any sequence of callbacks that runs
between the two regions. Such a sequence gives the same session and emissions
as running its envelopes just before the iteration and its mouse callbacks
just after it.

- `timestamps.dfy`, module `TimeStamps`: the `(seconds, microseconds)` stamp,
  the instant it denotes (`Total`, `FromTotal`), its order (`Before`), and the
  borrowing one-microsecond `Decrement`.
- `pointer.dfy`, module `Pointer`: the drag state `(active, x, y)` with 16-bit
  coordinates, the mouse callback `OnMouse`, and `Replay` over event sequences.
- `annotation.dfy`, module `Annotation`: the shared session state (drag state
  plus reference stamp). It defines the image listener `OnNewImage`, the two
  regions of the send block and their composition `LoopStep`, and `Run` over interleaved inputs (`Mouse`, `Observe`,
  `Frame`), which collects the emissions.
- `startup.dfy`, module `Startup`: the check for the required options and how
  `main` ends, by a returned code or by an uncaught conversion exception.

The mouse event codes are OpenCV's: left-button down 1, left-button up 4. Every
other code, a move included, is treated alike.
Storing an `int` coordinate into a `uint16_t` reduces it modulo 2^16 (`Narrow`).

A failed attach is not reported in the exit code. With every option present
and width and height converting, `main` returns 0, because `retCode = 0` on
line 136 lies outside the `valid()` branch of line 71.

Emitting before any image envelope has arrived is not suppressed. The reference
starts at the zero stamp (line 84), so the first emission is stamped
`(-1, 999999)`.

## Model

| member | source | states |
|---|---|---|
| TimeStamps.Decrement | src/opendlv-video-annotation-opencv.cpp:124-130 | the stamp denotes exactly one microsecond earlier, and keeps its seconds unless the microsecond part was 0; the result comes strictly before the original; a well-formed stamp (microseconds in 0..999999) stays well-formed and becomes the unique well-formed stamp for that instant |
| TimeStamps.DecrementTimesStrictlyDecrease | src/opendlv-video-annotation-opencv.cpp:124-130 | for any stamp with unbounded fields, well-formed or not, more decrements give a strictly earlier stamp (the fixed-width fields' overflow is outside the model, see Left out) |
| TimeStamps.DecrementTimesCountsBack | src/opendlv-video-annotation-opencv.cpp:124-131 | k repeated decrements move the stamp exactly k microseconds back and give the well-formed stamp of that instant |
| Pointer.Narrow | src/opendlv-video-annotation-opencv.cpp:44-45 | the stored coordinate is congruent to the `int` argument modulo 2^16 and equals it when it already fits |
| Pointer.OnMouse | src/opendlv-video-annotation-opencv.cpp:34-47 | a press activates and records that event's narrowed (x, y) even if already active; a release deactivates and keeps x, y; while inactive anything but a press changes nothing; while active anything but a release stays active and records (x mod 2^16, y mod 2^16) |
| Pointer.ReplayActiveIffHeld | src/opendlv-video-annotation-opencv.cpp:36-41 | after any event sequence the flag is set exactly when some press has no later release, or the flag was set initially and no release occurred |
| Pointer.HeldRecordsLatest | src/opendlv-video-annotation-opencv.cpp:43-46 | whenever the flag is set after a non-empty event sequence, the stored position is that of the last event |
| Pointer.DragTracksLatest | src/opendlv-video-annotation-opencv.cpp:36-46 | a press followed by events without a release leaves the state active at the last event's position |
| Pointer.IdleWithoutPressIsInert | src/opendlv-video-annotation-opencv.cpp:36-46 | from an inactive state, any sequence of events without a press changes nothing; moves never record a position |
| Annotation.OnNewImage | src/opendlv-video-annotation-opencv.cpp:85-88 | the listener overwrites the reference with the envelope's sample stamp whatever it held, and leaves the drag state alone |
| Annotation.ReadPointer | src/opendlv-video-annotation-opencv.cpp:115-122 | a direction is prepared exactly when the button is held, carrying the stored (x, y) as (azimuth, zenith) |
| Annotation.SendStamped | src/opendlv-video-annotation-opencv.cpp:123-132 | with a prepared direction, the reference becomes its borrowing decrement (one microsecond earlier) and the direction is sent with the new reference; without one, nothing is sent and the reference is unchanged |
| Annotation.LoopStep | src/opendlv-video-annotation-opencv.cpp:111-133 | an iteration emits exactly when the button is held; the emission carries the stored (x, y) as (azimuth, zenith) and the borrowing decrement of the reference, one microsecond and strictly before it, which becomes the new reference; otherwise nothing changes |
| Annotation.CallbacksBetweenRegions | src/opendlv-video-annotation-opencv.cpp:115-131 | any sequence of mouse callbacks and envelopes between the two locked regions of an iteration yields the same session and emissions as its envelopes before the whole iteration and its mouse callbacks after it |
| Annotation.RunAppend | src/opendlv-video-annotation-opencv.cpp:94-134 | running two input sequences in turn is running their concatenation; the first part's emissions come first |
| Annotation.RunPointerIsReplay | src/opendlv-video-annotation-opencv.cpp:34-47 | over any interleaving, the session's drag state is the replay of its mouse events alone, so the drag lemmas about event sequences hold of the session |
| Annotation.StampsCountDown | src/opendlv-video-annotation-opencv.cpp:123-131 | between observations the i-th emission is stamped i+1 decrements after the reference, and the final reference is as many decrements back as there were emissions |
| Annotation.StampsStrictlyDecrease | src/opendlv-video-annotation-opencv.cpp:123-131 | between observations, for any reference, emitted stamps strictly decrease and all come strictly before the reference |
| Annotation.StampsWellFormed | src/opendlv-video-annotation-opencv.cpp:123-131 | between observations of a well-formed reference, every emitted stamp is well-formed |
| Annotation.ObserveResetsReference | src/opendlv-video-annotation-opencv.cpp:85-131 | after an observation of any t, the i-th later emission up to the next observation is stamped exactly i+1 microseconds before t, whatever the reference was before; for a well-formed t it is the well-formed stamp of that instant |
| Annotation.FirstStampWithoutObserve | src/opendlv-video-annotation-opencv.cpp:84-131 | if something is emitted before the first observation since start-up, the first emission of the whole run, whatever follows, is stamped (-1, 999999) |
| Annotation.NoPressNoEmission | src/opendlv-video-annotation-opencv.cpp:112-132 | if the button is released and never pressed, nothing is ever emitted, however many frames arrive |
| Annotation.PressThenFrameEmitsOnce | src/opendlv-video-annotation-opencv.cpp:84-131 | an image stamped (100, 0), a press at (10, 20) and one frame give exactly one emission: direction (10, 20) stamped (99, 999999) |
| Startup.Main | src/opendlv-video-annotation-opencv.cpp:49-138 | returns 1 exactly when one of cid, name, width, height is absent, and then prints usage and runs nothing. With all present: an unconvertible width or height, or (after a good attach) an unconvertible cid, terminates with an uncaught exception; otherwise it returns 0. The loop runs exactly when all are present, everything converts and the shared memory is valid |
| Startup.AttachFailureExitsZero | src/opendlv-video-annotation-opencv.cpp:71-136 | with all options present and width and height converting, a failed attach returns 0, the same code as a finished session, whatever cid holds |

## Left out

- Window creation, `imshow`, `waitKey` and mouse-callback registration (lines 74-77, 109-110): display toolkit calls. Only the callback's effect is modelled.
- Shared-memory attach, `wait`, `lock`/`unlock` and the frame copy (lines 70-71, 98-106): inter-process plumbing and a pixel-buffer copy. The attach result is a parameter of `Startup.Main`. Each `Frame` input stands for one completed wait and copy.
- Session construction, `dataTrigger`, `isRunning` and the `send` transport (lines 80, 91, 94, 131): messaging plumbing. `send` is modelled as the emitted value of a step. Loop termination is modelled by the input sequence ending.
- The mutexes and thread scheduling (lines 29, 35, 83, 86, 116, 124): each callback is one atomic transition, and any interleaving is one input sequence. The two regions of the send block are fused into `LoopStep`; `CallbacksBetweenRegions` shows that this loses no interleaving.
- `std::stoi` conversion of cid, width and height (lines 66-67, 80): library parsing. Whether each value converts is a parameter of `Startup.Main`. A value that does not convert throws, and nothing catches the exception. Which strings convert, and to what value, is not modelled.
- Console output (lines 56-62, 72, 119): I/O. `Startup.Main` records only whether the usage text is printed.
- The unused `flags` and user-data arguments of the mouse callback: the body never reads them.
- TimeStamps.Decrement: both fields are unbounded integers, so the signed overflow of either fixed-width field at its lower bound is not modelled. In C++ that overflow is undefined behaviour. The seconds field overflows when it borrows at its minimum. The microseconds field overflows on line 129 only when it already holds its minimum. That is a malformed stamp with negative microseconds, which only an envelope can supply. The same bound limits `DecrementTimesStrictlyDecrease`, `StampsCountDown` and `StampsStrictlyDecrease`: they hold for the unbounded model. The field widths belong to the message library, which is not part of this model.
- Coordinate width: the callback's `int` coordinates are unbounded integers. Narrowing is modulo 2^16 for every value, which covers the whole 32-bit range.

=== FILE: annotation.dfy ===
/** The annotation cycle: the image listener overwrites the reference
    stamp, mouse callbacks drive the drag state, and each frame of the main
    loop emits one Direction while the button is held, stamped one
    microsecond before the reference it then replaces. Each callback is one
    atomic transition; the two locked regions of an iteration run back to
    back (see CallbacksBetweenRegions); the interleaving of the three
    threads is an arbitrary sequence of inputs. */
module Annotation {
  import opened TimeStamps
  import opened Pointer

  datatype Option<T> = None | Some(value: T)

  /** The outgoing direction message; its angles carry raw pixel
      coordinates (every 16-bit value is exact as a float). */
  datatype Direction = Direction(azimuth: real, zenith: real)

  /** What one send hands to the session: the message and its stamp. */
  datatype Emission = Emission(direction: Direction, stamp: TimeStamp)

  /** The state shared between the threads. */
  datatype Session = Session(pointer: PointerState, reference: TimeStamp)

  /** Drag state released at (0, 0) and a default reference stamp. */
  const Start: Session := Session(Pointer.Initial, TimeStamps.Zero)

  /** What can happen between two observations of the shared state. */
  datatype Input =
    | Mouse(event: MouseEvent)
    | Observe(sampleTimeStamp: TimeStamp)
    | Frame

  datatype Step = Step(next: Session, sent: Option<Emission>)

  /** The image listener: last write wins, whatever was stored before. */
  function OnNewImage(st: Session, sampleTimeStamp: TimeStamp): (r: Session)
    ensures r.reference == sampleTimeStamp
    ensures r.pointer == st.pointer
  {
    st.(reference := sampleTimeStamp)
  }

  /** The first locked region of the send block: the drag state is read
      and, if the button is held, a direction is prepared from it. */
  function ReadPointer(p: PointerState): (d: Option<Direction>)
    ensures d.Some? <==> p.active
    ensures d.Some? ==> d.value == Direction(p.x as real, p.y as real)
  {
    if p.active then Some(Direction(p.x as real, p.y as real)) else None
  }

  /** What the second locked region leaves behind: the stored reference
      and what it sent. */
  datatype Sending = Sending(reference: TimeStamp, sent: Option<Emission>)

  /** The second locked region: if a direction was prepared, the reference
      is moved one microsecond back and the direction is sent with it. */
  function SendStamped(reference: TimeStamp, d: Option<Direction>): (r: Sending)
    ensures d.None? ==> r == Sending(reference, None)
    ensures d.Some? ==>
      && r.reference == Decrement(reference)
      && r.sent == Some(Emission(d.value, r.reference))
      && Total(r.reference) == Total(reference) - 1
  {
    if d.Some? then
      var stamp := Decrement(reference);
      Sending(stamp, Some(Emission(d.value, stamp)))
    else
      Sending(reference, None)
  }

  /** The send block of one main-loop iteration, its two locked regions
      run back to back (see CallbacksBetweenRegions for why nothing is lost
      by that). */
  function LoopStep(st: Session): (r: Step)
    ensures r.sent.Some? <==> st.pointer.active
    ensures r.next.pointer == st.pointer
    ensures r.sent.Some? ==>
      && r.sent.value.direction == Direction(st.pointer.x as real, st.pointer.y as real)
      && r.sent.value.stamp == Decrement(st.reference)
      && Total(r.sent.value.stamp) == Total(st.reference) - 1
      && Before(r.sent.value.stamp, st.reference)
      && r.next.reference == r.sent.value.stamp
    ensures r.sent.None? ==> r.next == st
    ensures Valid(st.reference) && r.sent.Some? ==> Valid(r.sent.value.stamp)
  {
    var s := SendStamped(st.reference, ReadPointer(st.pointer));
    Step(st.(reference := s.reference), s.sent)
  }

  function Apply(st: Session, input: Input): Step {
    match input
    case Mouse(e) => Step(st.(pointer := OnMouse(st.pointer, e)), None)
    case Observe(t) => Step(OnNewImage(st, t), None)
    case Frame => LoopStep(st)
  }

  datatype Trace = Trace(final: Session, emitted: seq<Emission>)

  function AsSeq(o: Option<Emission>): seq<Emission> {
    if o.Some? then [o.value] else []
  }

  /** The session after `inputs`, with everything sent on the way, in order. */
  function Run(st: Session, inputs: seq<Input>): Trace
    decreases |inputs|
  {
    if |inputs| == 0 then Trace(st, [])
    else
      var s := Apply(st, inputs[0]);
      var t := Run(s.next, inputs[1..]);
      Trace(t.final, AsSeq(s.sent) + t.emitted)
  }

  predicate NoObserve(inputs: seq<Input>) {
    forall i :: 0 <= i < |inputs| ==> !inputs[i].Observe?
  }

  predicate NoPress(inputs: seq<Input>) {
    forall i :: 0 <= i < |inputs| ==> !(inputs[i].Mouse? && inputs[i].event.kind == EventLButtonDown)
  }

  /** Between two observations the i-th emission is stamped i + 1
      microseconds before the reference, and the stored reference ends as
      many microseconds back as there were emissions. */
  lemma {:induction false} StampsCountDown(st: Session, inputs: seq<Input>)
    requires NoObserve(inputs)
    ensures var tr := Run(st, inputs);
      && (forall i :: 0 <= i < |tr.emitted| ==>
            tr.emitted[i].stamp == DecrementTimes(st.reference, i + 1))
      && tr.final.reference == DecrementTimes(st.reference, |tr.emitted|)
    decreases |inputs|
  {
    if |inputs| > 0 {
      var s := Apply(st, inputs[0]);
      assert NoObserve(inputs[1..]) by {
        forall i | 0 <= i < |inputs[1..]|
          ensures !inputs[1..][i].Observe?
        {
          assert inputs[1..][i] == inputs[i + 1];
        }
      }
      StampsCountDown(s.next, inputs[1..]);
      var t := Run(s.next, inputs[1..]);
      if s.sent.Some? {
        assert s.next.reference == DecrementTimes(st.reference, 1);
        forall k: nat | true
          ensures DecrementTimes(s.next.reference, k) == DecrementTimes(st.reference, k + 1)
        {
          ShiftDecrements(st.reference, k);
        }
      } else {
        assert s.next.reference == st.reference;
      }
    }
  }

  lemma {:induction false} ShiftDecrements(t: TimeStamp, k: nat)
    ensures DecrementTimes(Decrement(t), k) == DecrementTimes(t, k + 1)
    decreases k
  {
    if k > 0 {
      ShiftDecrements(t, k - 1);
    }
  }

  /** Between two observations, emitted stamps strictly decrease and all
      come before the reference: no two emissions share a stamp and none
      collides with the frame's. */
  lemma StampsStrictlyDecrease(st: Session, inputs: seq<Input>)
    requires NoObserve(inputs)
    ensures var em := Run(st, inputs).emitted;
      && (forall i :: 0 <= i < |em| ==> Before(em[i].stamp, st.reference))
      && (forall i, j :: 0 <= i < j < |em| ==> Before(em[j].stamp, em[i].stamp))
  {
    var em := Run(st, inputs).emitted;
    StampsCountDown(st, inputs);
    assert DecrementTimes(st.reference, 0) == st.reference;
    forall i | 0 <= i < |em|
      ensures Before(em[i].stamp, st.reference)
    {
      DecrementTimesStrictlyDecrease(st.reference, 0, i + 1);
    }
    forall i, j | 0 <= i < j < |em|
      ensures Before(em[j].stamp, em[i].stamp)
    {
      DecrementTimesStrictlyDecrease(st.reference, i + 1, j + 1);
    }
  }

  /** Between two observations of a well-formed reference, every emitted
      stamp is well-formed. */
  lemma StampsWellFormed(st: Session, inputs: seq<Input>)
    requires NoObserve(inputs)
    requires Valid(st.reference)
    ensures var em := Run(st, inputs).emitted;
      forall i :: 0 <= i < |em| ==> Valid(em[i].stamp)
  {
    var em := Run(st, inputs).emitted;
    StampsCountDown(st, inputs);
    forall i | 0 <= i < |em|
      ensures Valid(em[i].stamp)
    {
      DecrementTimesCountsBack(st.reference, i + 1);
    }
  }

  /** An observation of t decides every later stamp up to the next
      observation, whatever reference was stored before it. */
  lemma ObserveResetsReference(st: Session, t: TimeStamp, inputs: seq<Input>)
    requires NoObserve(inputs)
    ensures var em := Run(st, [Observe(t)] + inputs).emitted;
      forall i :: 0 <= i < |em| ==> Total(em[i].stamp) == Total(t) - (i + 1)
    ensures var em := Run(st, [Observe(t)] + inputs).emitted;
      Valid(t) ==> forall i :: 0 <= i < |em| ==> em[i].stamp == FromTotal(Total(t) - (i + 1))
  {
    assert ([Observe(t)] + inputs)[1..] == inputs;
    var st' := OnNewImage(st, t);
    StampsCountDown(st', inputs);
    var em := Run(st', inputs).emitted;
    forall i | 0 <= i < |em|
      ensures Total(em[i].stamp) == Total(t) - (i + 1)
      ensures Valid(t) ==> em[i].stamp == FromTotal(Total(t) - (i + 1))
    {
      DecrementTimesCountsBack(t, i + 1);
    }
  }

  /** Running two input sequences one after the other is running their
      concatenation; the emissions of the first come first. */
  lemma {:induction false} RunAppend(st: Session, a: seq<Input>, b: seq<Input>)
    ensures var ra := Run(st, a);
      var rb := Run(ra.final, b);
      Run(st, a + b) == Trace(rb.final, ra.emitted + rb.emitted)
    decreases |a|
  {
    if |a| == 0 {
      assert a + b == b;
    } else {
      assert (a + b)[0] == a[0];
      assert (a + b)[1..] == a[1..] + b;
      RunAppend(Apply(st, a[0]).next, a[1..], b);
    }
  }

  /** If something is emitted before the first observation since start-up,
      the first emission of the whole run is stamped one microsecond before
      the zero stamp, whatever follows. */
  lemma FirstStampWithoutObserve(inputs: seq<Input>, later: seq<Input>)
    requires NoObserve(inputs)
    requires |Run(Start, inputs).emitted| > 0
    ensures |Run(Start, inputs + later).emitted| > 0
    ensures Run(Start, inputs + later).emitted[0].stamp == TimeStamp(-1, 999999)
  {
    StampsCountDown(Start, inputs);
    RunAppend(Start, inputs, later);
  }

  /** A released button that is never pressed never causes an emission,
      however many frames arrive. */
  lemma {:induction false} NoPressNoEmission(st: Session, inputs: seq<Input>)
    requires !st.pointer.active
    requires NoPress(inputs)
    ensures Run(st, inputs).emitted == []
    ensures Run(st, inputs).final.pointer == st.pointer
    decreases |inputs|
  {
    if |inputs| > 0 {
      assert NoPress(inputs[1..]) by {
        forall i | 0 <= i < |inputs[1..]|
          ensures !(inputs[1..][i].Mouse? && inputs[1..][i].event.kind == EventLButtonDown)
        {
          assert inputs[1..][i] == inputs[i + 1];
        }
      }
      assert !(inputs[0].Mouse? && inputs[0].event.kind == EventLButtonDown);
      NoPressNoEmission(Apply(st, inputs[0]).next, inputs[1..]);
    }
  }

  /** A frame stamped (100, 0), a press at (10, 20) and one loop
      iteration give exactly one emission, at (10, 20), stamped (99, 999999). */
  lemma PressThenFrameEmitsOnce()
    ensures Run(Start, [Observe(TimeStamp(100, 0)), Mouse(MouseEvent(EventLButtonDown, 10, 20)), Frame]).emitted
      == [Emission(Direction(10.0, 20.0), TimeStamp(99, 999999))]
  {
    var ins := [Observe(TimeStamp(100, 0)), Mouse(MouseEvent(EventLButtonDown, 10, 20)), Frame];
    var s1 := Session(Pointer.Initial, TimeStamp(100, 0));
    var s2 := Session(PointerState(true, 10, 20), TimeStamp(100, 0));
    assert ins[1..] == [Mouse(MouseEvent(EventLButtonDown, 10, 20)), Frame];
    assert ins[1..][1..] == [Frame];
    assert Run(s2, [Frame]).emitted == [Emission(Direction(10.0, 20.0), TimeStamp(99, 999999))] by {
      assert [Frame][1..] == [];
    }
    assert Apply(s1, ins[1]).next == s2;
  }

  /** No loop iteration among `inputs`: only callbacks. */
  predicate CallbacksOnly(inputs: seq<Input>)
    decreases |inputs|
  {
    |inputs| == 0 || (!inputs[0].Frame? && CallbacksOnly(inputs[1..]))
  }

  /** The envelopes among `inputs`, in order. */
  function Observations(inputs: seq<Input>): (r: seq<Input>)
    ensures CallbacksOnly(r)
    ensures MouseEvents(r) == []
    decreases |inputs|
  {
    if |inputs| == 0 then []
    else
      var rest := Observations(inputs[1..]);
      if inputs[0].Observe? then
        assert ([inputs[0]] + rest)[1..] == rest;
        [inputs[0]] + rest
      else
        rest
  }

  /** The mouse callbacks among `inputs`, in order. */
  function MouseCallbacks(inputs: seq<Input>): (r: seq<Input>)
    ensures CallbacksOnly(r)
    ensures MouseEvents(r) == MouseEvents(inputs)
    decreases |inputs|
  {
    if |inputs| == 0 then []
    else
      var rest := MouseCallbacks(inputs[1..]);
      if inputs[0].Mouse? then
        assert ([inputs[0]] + rest)[1..] == rest;
        [inputs[0]] + rest
      else
        assert [] + MouseEvents(inputs[1..]) == MouseEvents(inputs[1..]);
        rest
  }

  /** The reference after `inputs`, started from `reference`: the last
      envelope's stamp, or `reference` if there is none. */
  function LastObserved(reference: TimeStamp, inputs: seq<Input>): TimeStamp
    decreases |inputs|
  {
    if |inputs| == 0 then reference
    else LastObserved(if inputs[0].Observe? then inputs[0].sampleTimeStamp else reference, inputs[1..])
  }

  /** Callbacks alone emit nothing; they leave the replay of their mouse
      events as drag state and their last envelope's stamp as reference. */
  lemma {:induction false} CallbacksRun(st: Session, inputs: seq<Input>)
    requires CallbacksOnly(inputs)
    ensures Run(st, inputs) ==
      Trace(Session(Replay(st.pointer, MouseEvents(inputs)), LastObserved(st.reference, inputs)), [])
    decreases |inputs|
  {
    RunPointerIsReplay(st, inputs);
    if |inputs| > 0 {
      CallbacksRun(Apply(st, inputs[0]).next, inputs[1..]);
    }
  }

  lemma {:induction false} FilteredLastObserved(reference: TimeStamp, inputs: seq<Input>)
    ensures LastObserved(reference, Observations(inputs)) == LastObserved(reference, inputs)
    ensures LastObserved(reference, MouseCallbacks(inputs)) == reference
    decreases |inputs|
  {
    if |inputs| > 0 {
      var next := if inputs[0].Observe? then inputs[0].sampleTimeStamp else reference;
      FilteredLastObserved(next, inputs[1..]);
      FilteredLastObserved(reference, inputs[1..]);
      var o := Observations(inputs[1..]);
      var m := MouseCallbacks(inputs[1..]);
      if inputs[0].Observe? {
        assert ([inputs[0]] + o)[1..] == o;
        assert [] + m == m;
      } else {
        assert [] + o == o;
        if inputs[0].Mouse? {
          assert ([inputs[0]] + m)[1..] == m;
        } else {
          assert [] + m == m;
        }
      }
    }
  }

  /** The envelopes of `between` followed by one iteration: the iteration
      stamps from the last envelope and reads the untouched drag state. */
  lemma ObservationsThenFrame(st: Session, between: seq<Input>)
    ensures
      var s := SendStamped(LastObserved(st.reference, between), ReadPointer(st.pointer));
      Run(st, Observations(between) + [Frame]) == Trace(Session(st.pointer, s.reference), AsSeq(s.sent))
  {
    var o := Observations(between);
    var ref := LastObserved(st.reference, between);
    var s := SendStamped(ref, ReadPointer(st.pointer));
    var afterO := Session(st.pointer, ref);
    assert Run(st, o) == Trace(afterO, []) by {
      CallbacksRun(st, o);
      FilteredLastObserved(st.reference, between);
      assert Replay(st.pointer, []) == st.pointer;
    }
    assert Run(afterO, [Frame]) == Trace(Session(st.pointer, s.reference), AsSeq(s.sent)) by {
      assert [Frame][1..] == [];
    }
    RunAppend(st, o, [Frame]);
  }

  /** Any callbacks that run between the two locked regions of an
      iteration give the same session and emissions as running their
      envelopes just before the iteration and their mouse callbacks just
      after it: the first region reads only the drag state, the second
      only the reference. */
  lemma CallbacksBetweenRegions(st: Session, between: seq<Input>)
    requires CallbacksOnly(between)
    ensures
      var d := ReadPointer(st.pointer);
      var mid := Run(st, between).final;
      var s := SendStamped(mid.reference, d);
      Trace(Session(mid.pointer, s.reference), AsSeq(s.sent))
        == Run(st, Observations(between) + [Frame] + MouseCallbacks(between))
  {
    var o := Observations(between);
    var m := MouseCallbacks(between);
    var ref := LastObserved(st.reference, between);
    var s := SendStamped(ref, ReadPointer(st.pointer));
    var p := Replay(st.pointer, MouseEvents(between));
    var afterF := Session(st.pointer, s.reference);
    assert Run(st, between).final == Session(p, ref) by {
      CallbacksRun(st, between);
    }
    assert Run(st, o + [Frame]) == Trace(afterF, AsSeq(s.sent)) by {
      ObservationsThenFrame(st, between);
    }
    assert Run(afterF, m) == Trace(Session(p, s.reference), []) by {
      CallbacksRun(afterF, m);
      FilteredLastObserved(s.reference, between);
    }
    RunAppend(st, o + [Frame], m);
    assert AsSeq(s.sent) + [] == AsSeq(s.sent);
  }

  /** The mouse events among `inputs`, in order. */
  function MouseEvents(inputs: seq<Input>): seq<MouseEvent>
    decreases |inputs|
  {
    if |inputs| == 0 then []
    else (if inputs[0].Mouse? then [inputs[0].event] else []) + MouseEvents(inputs[1..])
  }

  /** The drag state of a session is the replay of its mouse events alone:
      envelopes and frames never touch it, so every fact about Replay is a
      fact about the session. */
  lemma {:induction false} RunPointerIsReplay(st: Session, inputs: seq<Input>)
    ensures Run(st, inputs).final.pointer == Replay(st.pointer, MouseEvents(inputs))
    decreases |inputs|
  {
    if |inputs| > 0 {
      var s := Apply(st, inputs[0]);
      var rest := inputs[1..];
      RunPointerIsReplay(s.next, rest);
      if inputs[0].Mouse? {
        var e := inputs[0].event;
        assert Replay(st.pointer, [e]) == OnMouse(st.pointer, e) by {
          assert [e][..0] == [];
        }
        ReplayAppend(st.pointer, [e], MouseEvents(rest));
      } else {
        assert MouseEvents(inputs) == MouseEvents(rest);
      }
    }
  }
}

=== FILE: pointer.dfy ===
/** The drag state written by the display's mouse callback: whether the
    left button is held, and the last pointer position recorded while it
    was. */
module Pointer {

  newtype uint16 = v: int | 0 <= v < 0x1_0000

  /** Mouse event codes of the display toolkit (OpenCV's highgui). */
  const EventLButtonDown: int := 1
  const EventLButtonUp: int := 4

  /** One callback invocation: the event code and the window coordinates,
      as the toolkit's plain `int`s. */
  datatype MouseEvent = MouseEvent(kind: int, x: int, y: int)

  datatype PointerState = PointerState(active: bool, x: uint16, y: uint16)

  const Initial: PointerState := PointerState(false, 0, 0)

  /** Conversion of an `int` to an unsigned 16-bit field: reduction
      modulo 2^16. */
  function Narrow(v: int): (r: uint16)
    ensures (r as int - v) % 0x1_0000 == 0
    ensures 0 <= v < 0x1_0000 ==> r as int == v
  {
    (v % 0x1_0000) as uint16
  }

  /** One mouse callback, run as a single atomic transition. */
  function OnMouse(s: PointerState, e: MouseEvent): (r: PointerState)
    ensures e.kind == EventLButtonDown ==> r == PointerState(true, Narrow(e.x), Narrow(e.y))
    ensures e.kind == EventLButtonUp ==> r == PointerState(false, s.x, s.y)
    ensures !s.active && e.kind != EventLButtonDown ==> r == s
    ensures s.active && e.kind != EventLButtonUp ==> r == PointerState(true, Narrow(e.x), Narrow(e.y))
  {
    var active := if e.kind == EventLButtonDown then true
                  else if e.kind == EventLButtonUp then false
                  else s.active;
    if active then PointerState(true, Narrow(e.x), Narrow(e.y))
    else s.(active := false)
  }

  /** The state after the callbacks for `events`, in order. */
  function Replay(s: PointerState, events: seq<MouseEvent>): PointerState
    decreases |events|
  {
    if |events| == 0 then s
    else OnMouse(Replay(s, events[..|events| - 1]), events[|events| - 1])
  }

  /** No left-button release after position k of events (k may be -1). */
  predicate NoReleaseAfter(events: seq<MouseEvent>, k: int) {
    forall j :: 0 <= j < |events| && k < j ==> events[j].kind != EventLButtonUp
  }

  /** Independent description of "the button is held after `events`":
      some press is followed by no release, or the button was already held
      and nothing released it. */
  predicate HeldAfter(s: PointerState, events: seq<MouseEvent>) {
    || (exists i :: 0 <= i < |events| && events[i].kind == EventLButtonDown && NoReleaseAfter(events, i))
    || (s.active && NoReleaseAfter(events, -1))
  }

  /** The replayed flag is exactly the reference description. */
  lemma {:induction false} ReplayActiveIffHeld(s: PointerState, events: seq<MouseEvent>)
    ensures Replay(s, events).active <==> HeldAfter(s, events)
    decreases |events|
  {
    if |events| > 0 {
      var n := |events| - 1;
      var p := events[..n];
      var e := events[n];
      ReplayActiveIffHeld(s, p);
      if e.kind == EventLButtonDown {
        assert NoReleaseAfter(events, n);
      } else if e.kind == EventLButtonUp {
        assert !NoReleaseAfter(events, -1);
        forall i | 0 <= i < n
          ensures !NoReleaseAfter(events, i)
        {
          assert events[n].kind == EventLButtonUp;
        }
      } else {
        if HeldAfter(s, p) {
          if i :| 0 <= i < |p| && p[i].kind == EventLButtonDown && NoReleaseAfter(p, i) {
            assert events[i] == p[i];
            assert NoReleaseAfter(events, i);
          } else {
            assert NoReleaseAfter(events, -1);
          }
        }
        if HeldAfter(s, events) {
          if i :| 0 <= i < |events| && events[i].kind == EventLButtonDown && NoReleaseAfter(events, i) {
            assert i < n;
            assert p[i] == events[i];
            assert NoReleaseAfter(p, i);
          } else {
            assert NoReleaseAfter(p, -1);
          }
        }
      }
    }
  }

  /** While the button is held, the recorded position is that of the most
      recent event, narrowed to 16 bits. */
  lemma HeldRecordsLatest(s: PointerState, events: seq<MouseEvent>)
    requires |events| > 0
    requires Replay(s, events).active
    ensures Replay(s, events).x == Narrow(events[|events| - 1].x)
    ensures Replay(s, events).y == Narrow(events[|events| - 1].y)
  {
  }

  /** A drag: a press followed by any events but a release leaves the
      button held at the last event's position. */
  lemma DragTracksLatest(s: PointerState, events: seq<MouseEvent>)
    requires |events| > 0 && events[0].kind == EventLButtonDown
    requires NoReleaseAfter(events, 0)
    ensures Replay(s, events) == PointerState(true, Narrow(events[|events| - 1].x), Narrow(events[|events| - 1].y))
  {
  }

  /** A released button ignores every event but a press: moves never
      record a position. */
  lemma {:induction false} IdleWithoutPressIsInert(s: PointerState, events: seq<MouseEvent>)
    requires !s.active
    requires forall i :: 0 <= i < |events| ==> events[i].kind != EventLButtonDown
    ensures Replay(s, events) == s
    decreases |events|
  {
    if |events| > 0 {
      IdleWithoutPressIsInert(s, events[..|events| - 1]);
    }
  }

  /** Replaying two event sequences one after the other is replaying
      their concatenation. */
  lemma {:induction false} ReplayAppend(s: PointerState, a: seq<MouseEvent>, b: seq<MouseEvent>)
    ensures Replay(s, a + b) == Replay(Replay(s, a), b)
    decreases |b|
  {
    if |b| == 0 {
      assert a + b == a;
    } else {
      var n := |b| - 1;
      ReplayAppend(s, a, b[..n]);
      assert (a + b)[..|a + b| - 1] == a + b[..n];
      assert (a + b)[|a + b| - 1] == b[n];
    }
  }
}

=== FILE: startup.dfy ===
/** Start-up of the program: the required command-line options and how
    `main` ends. */
module Startup {

  /** The options the program cannot start without. */
  const RequiredOptions: set<string> := {"cid", "name", "width", "height"}

  predicate AllRequiredPresent(args: map<string, string>) {
    RequiredOptions <= args.Keys
  }

  /** How `main` ends: it returns a code, or an exception it does not
      catch terminates the process. */
  datatype Exit = Returned(code: int) | Terminated

  /** What `main` did: printed the usage text, ran the annotation loop
      until the session stopped, and how it ended. */
  datatype Outcome = Outcome(printedUsage: bool, ranSession: bool, exit: Exit)

  /** `main` on the parsed options. The text-to-integer conversions and the
      attach are outside the model and enter as facts about this run:
      whether width and height convert, whether the named shared memory is
      valid, and whether cid converts. A value that does not convert makes
      the conversion throw, which nothing catches. The loop, once entered,
      runs until the session stops; its effects are in the Annotation
      module. */
  function Main(args: map<string, string>, dimensionsConvert: bool,
                sharedMemoryValid: bool, cidConverts: bool): (r: Outcome)
    ensures r.exit == Returned(1) <==> !AllRequiredPresent(args)
    ensures r.exit == Returned(0) <==>
      AllRequiredPresent(args) && dimensionsConvert && (!sharedMemoryValid || cidConverts)
    ensures r.exit.Terminated? <==>
      AllRequiredPresent(args) && (!dimensionsConvert || (sharedMemoryValid && !cidConverts))
    ensures r.printedUsage <==> !AllRequiredPresent(args)
    ensures r.ranSession <==>
      AllRequiredPresent(args) && dimensionsConvert && sharedMemoryValid && cidConverts
  {
    if "cid" !in args || "name" !in args || "width" !in args || "height" !in args then
      Outcome(true, false, Returned(1))
    else if !dimensionsConvert then
      Outcome(false, false, Terminated)
    else if sharedMemoryValid && !cidConverts then
      Outcome(false, false, Terminated)
    else
      Outcome(false, sharedMemoryValid, Returned(0))
  }

  /** A failed attach is not reported in the exit code: with every option
      present and width and height converting, the program returns 0
      whether or not the loop ran (cid is never converted then). */
  lemma AttachFailureExitsZero(args: map<string, string>, cidConverts: bool)
    requires AllRequiredPresent(args)
    ensures Main(args, true, false, cidConverts) == Outcome(false, false, Returned(0))
    ensures Main(args, true, false, cidConverts).exit == Main(args, true, true, true).exit
  {
  }
}

=== FILE: timestamps.dfy ===
/** The sample time stamp carried by every envelope of the message bus:
    whole seconds plus a microsecond part, and the one-microsecond
    decrement the annotation loop applies to it before each emission. */
module TimeStamps {

  const MicrosPerSecond: int := 1000000

  /** Both fields are kept as unbounded integers; a well-formed stamp has
      its microsecond part in 0..999999 (see Valid). */
  datatype TimeStamp = TimeStamp(seconds: int, microseconds: int)

  /** The value a default-constructed stamp holds. */
  const Zero: TimeStamp := TimeStamp(0, 0)

  predicate Valid(t: TimeStamp) {
    0 <= t.microseconds < MicrosPerSecond
  }

  /** The instant a stamp denotes, counted in microseconds. */
  function Total(t: TimeStamp): int {
    t.seconds * MicrosPerSecond + t.microseconds
  }

  /** The well-formed stamp denoting instant n (the partner of Total). */
  function FromTotal(n: int): (t: TimeStamp)
    ensures Valid(t)
    ensures Total(t) == n
  {
    TimeStamp(n / MicrosPerSecond, n % MicrosPerSecond)
  }

  /** Lexicographic order on (seconds, microseconds). */
  predicate Before(a: TimeStamp, b: TimeStamp) {
    a.seconds < b.seconds || (a.seconds == b.seconds && a.microseconds < b.microseconds)
  }

  /** On well-formed stamps the lexicographic order is the order of instants. */
  lemma BeforeIffEarlier(a: TimeStamp, b: TimeStamp)
    requires Valid(a) && Valid(b)
    ensures Before(a, b) <==> Total(a) < Total(b)
  {
  }

  /** A well-formed stamp is determined by the instant it denotes. */
  lemma TotalDeterminesStamp(a: TimeStamp, b: TimeStamp)
    requires Valid(a) && Valid(b)
    requires Total(a) == Total(b)
    ensures a == b
  {
  }

  /** Round trip: reading a well-formed stamp as an instant and back. */
  lemma FromTotalOfTotal(t: TimeStamp)
    requires Valid(t)
    ensures FromTotal(Total(t)) == t
  {
  }

  /** One microsecond earlier, borrowing a second when the microsecond
      part is zero. */
  function Decrement(t: TimeStamp): (r: TimeStamp)
    ensures Total(r) == Total(t) - 1
    ensures Before(r, t)
    ensures Valid(t) ==> Valid(r)
    ensures Valid(t) ==> r == FromTotal(Total(t) - 1)
    ensures t.microseconds != 0 ==> r.seconds == t.seconds
  {
    if t.microseconds == 0 then TimeStamp(t.seconds - 1, 999999)
    else TimeStamp(t.seconds, t.microseconds - 1)
  }

  /** The stamp after k consecutive decrements. */
  function DecrementTimes(t: TimeStamp, k: nat): TimeStamp
    decreases k
  {
    if k == 0 then t else Decrement(DecrementTimes(t, k - 1))
  }

  /** k decrements move a stamp exactly k microseconds back, and keep a
      well-formed stamp well-formed. */
  lemma {:induction false} DecrementTimesCountsBack(t: TimeStamp, k: nat)
    ensures Total(DecrementTimes(t, k)) == Total(t) - k
    ensures Valid(t) ==> DecrementTimes(t, k) == FromTotal(Total(t) - k)
    decreases k
  {
    if k > 0 {
      DecrementTimesCountsBack(t, k - 1);
      var p := DecrementTimes(t, k - 1);
      if Valid(t) {
        assert Valid(p);
        assert Decrement(p) == FromTotal(Total(p) - 1);
      }
    }
  }

  /** Later decrements give strictly earlier stamps, for any stamp,
      well-formed or not. */
  lemma {:induction false} DecrementTimesStrictlyDecrease(t: TimeStamp, i: nat, j: nat)
    requires i < j
    ensures Before(DecrementTimes(t, j), DecrementTimes(t, i))
    decreases j
  {
    if j > i + 1 {
      DecrementTimesStrictlyDecrease(t, i, j - 1);
    }
  }
}
